=== FILE: README.md ===
# vpk-extractor path handling, in Dafny

vpk-extractor unpacks a Valve Pak (VPK) archive into a directory tree named
after the archive. The archive itself is decoded by an external library. This
project models the extractor's own logic from `src/main.c`:

- how an entry's path is sanitised: leading `isspace` characters are trimmed,
  then at most one leading `/` or `\` is dropped;
- how the destination `<root>/<path>` is formed in a 1024-character buffer and
  bounded by `MAX_PATH_LENGTH` (260);
- how the parent directory is found with `strrchr`;
- how the output root `<stem>_dir` is derived. This happens twice, with two
  different rules for stripping `.vpk`: once in `main` and once for every
  entry;
- the literal string-equality collision guard;
- `create_directory` and `create_nested_directories`;
- the entry loop of `extract_vpk`;
- `main`.

Modules:

- `CStrings`: the C library facts the code leans on. These are C-locale
  `isspace`, the two separators, the 1024-character buffers (`Buffered` keeps
  the first 1023 characters of a longer string) and `strrchr`.
- `EntryPaths`: `trim_leading`, sanitisation, `is_valid_path`, the destination
  and its parent.
- `OutputRoot`: the archive's base name, both extension rules, and both roots.
- `Directories`: an abstract file system with three sets of names:
  - directories;
  - non-directories, for which `mkdir` reports EEXIST;
  - names whose `mkdir` fails with any other error.

  `create_nested_directories` is given twice. One version is declarative: a
  run of `create_directory` over the prefixes before each separator at
  index 1 or later, then the whole working copy. The other is a method that
  edits the buffer in place, as the C loop does. They are proved equal.
- `Extractor`: the per-entry plan (`Materialize`), the per-entry outcome, the
  loop, `extract_vpk` and `main` (`RunExtractor`).
- `WorkedCases`: whole-program results on small inputs.

The archive library is replaced by data. An `Entry` carries four things:
- its path;
- whether `vpk_fopen` succeeds;
- its bytes;
- the answers of the allocating read, `fopen`, `fwrite` and `fclose`.

`vpk_load` failing is `None` in place of the entry sequence.

The model follows the code at the collision guard. When the entry's parent
directory equals the root recomputed from the archive's path, the whole entry
is skipped (`continue` at line 150), not just the creation of its directories.
For a top-level entry the parent is the output directory itself. So under the
program's own root every top-level entry is skipped (`TopLevelEntriesSkipped`).
The one exception is an archive whose file name is exactly `.vpk`. There the
two extension rules disagree: the start-up root is `.vpk_dir`, the per-entry
root is `_dir`, and the guard never fires (`RootsAgree`).

## Model

| member | source | states |
|---|---|---|
| CStrings.IsSpace | src/main.c:23-27 | the characters `isspace` accepts in the C locale, which `trim_leading` skips |
| CStrings.IsSeparator | src/main.c:72-76 | the two path separators, '/' and '\\', tested at lines 72, 76 and 101 |
| CStrings.Buffered | src/main.c:231-233 | a fixed buffer keeps a prefix of its input: all of it below 1024 characters, else exactly 1023 |
| CStrings.LastIndexBelow | src/main.c:119 | the result is absent iff the character is missing from the first n positions; otherwise it is an occurrence below n with none after it below n |
| CStrings.LastIndexOf | src/main.c:119 | `strrchr`: absent iff the character does not occur; otherwise an occurrence with no later one |
| CStrings.LastIndexOfUnique | src/main.c:119 | an occurrence followed by no other occurrence is the one `strrchr` finds |
| CStrings.LastIndexOfAppendRight | src/main.c:119 | on `a + b` where `b` holds the character, `strrchr` finds `b`'s last occurrence, offset by `|a|` |
| CStrings.LastIndexOfAppendLeft | src/main.c:119 | on `a + b` where `b` lacks the character, `strrchr` answers as on `a` |
| EntryPaths.TrimLeading | src/main.c:23-27 | the result is a suffix, everything dropped is whitespace, and the result does not start with whitespace |
| EntryPaths.TrimLeadingExact | src/main.c:23-27 | whitespace followed by text that does not start with whitespace trims to exactly that text |
| EntryPaths.StripOneSeparator | src/main.c:100-102 | at most the first character is dropped, and it is dropped exactly when it is '/' or '\'; `SanitizeCharacterization` gives the whole sanitisation |
| EntryPaths.Sanitize | src/main.c:97-102 | the relative path is a suffix of the raw path; every dropped character but the last is whitespace; the last dropped one is whitespace or a separator |
| EntryPaths.SanitizeCharacterization | src/main.c:97-102 | splitting the raw path into a whitespace prefix and the rest, sanitising drops a separator at the head of the rest and nothing else |
| EntryPaths.SanitizeKeepsAfterFirstSeparator | src/main.c:100-102 | only one separator is dropped; a second separator or more whitespace after it is kept |
| EntryPaths.IsValidPath | src/main.c:30-32 | a path is valid when it is shorter than 260 characters; `Destination` ties this to the length of the untruncated `root + "/" + path` |
| EntryPaths.Destination | src/main.c:111-117 | the buffered destination is valid iff `|root| + 1 + |path| < 260`, and a valid destination is the untruncated `root + "/" + path` |
| EntryPaths.ParentDirectory | src/main.c:119-124 | absent iff the path has no '/'; otherwise it is the prefix before a '/' with no '/' after that one |
| EntryPaths.ParentOfDestination | src/main.c:119-124 | the parent of `root/path` is `root` for a path without '/', and `root/` plus the path up to its last '/' otherwise |
| OutputRoot.BaseName | src/main.c:225-229 | the base name holds no '/', is a suffix of the archive path, and is preceded by '/' when it is not the whole path |
| OutputRoot.ArchiveName | src/main.c:231-233 | the buffered base name holds no '/' |
| OutputRoot.ExtensionStartsAtLastDot | src/main.c:138-139 | in a name ending with ".vpk", the last '.' is the extension's |
| OutputRoot.StripExtensionAtStartup | src/main.c:235-237 | the stem is the name itself, or the name minus a trailing ".vpk" |
| OutputRoot.StripExtensionPerEntry | src/main.c:138-141 | the stem is the name itself, or the name minus a trailing ".vpk" |
| OutputRoot.PerEntryStripsExactlyExtension | src/main.c:138-141 | the per-entry rule changes a name iff it ends with ".vpk", including ".vpk" itself |
| OutputRoot.StripExtensionRulesAgree | src/main.c:138-141 | the start-up and per-entry rules give the same stem iff the name is not exactly ".vpk" |
| OutputRoot.StartupRoot | src/main.c:225-240 | the start-up root is the archive's file name, minus a trailing ".vpk" unless the name is ".vpk" itself, followed by "_dir", in a 1024-character buffer; `RootsHaveNoSlash` and `RootsAgree` relate it to the per-entry root |
| OutputRoot.PerEntryRoot | src/main.c:127-144 | the per-entry root is the archive's file name, minus any trailing ".vpk", followed by "_dir", in a 1024-character buffer |
| OutputRoot.RootsHaveNoSlash | src/main.c:127-144 | neither the start-up root nor the per-entry root contains '/' |
| OutputRoot.RootsAgree | src/main.c:134-144 | the start-up root equals the per-entry root iff the archive's file name is not exactly ".vpk"; for ".vpk" they are ".vpk_dir" and "_dir" |
| OutputRoot.ExtensionNameRoots | src/main.c:134-144 | an archive named exactly ".vpk" gets the start-up root ".vpk_dir" and the per-entry root "_dir" |
| Directories.CreateDirectory | src/main.c:41-61 | an existing directory, or a name `mkdir` reports as existing, succeeds with no change; otherwise the directory is added unless `mkdir` refuses, and a refusal changes nothing |
| Directories.CreateDirectoryIdempotent | src/main.c:41-61 | a second call on the same name, after a success, gives the same answer and the same file system |
| Directories.CreateAll | src/main.c:75-84 | creating names in turn keeps existing directories, adds only given names, and on success leaves every name a directory or a non-directory; a failure names a refused name |
| Directories.CreateAllFirst | src/main.c:75-84 | a run proceeds past its first name only if that creation succeeds |
| Directories.CreateAllSuccess | src/main.c:75-84 | a successful run adds exactly the given names that were not already non-directories |
| Directories.CreateAllStopsAtFailure | src/main.c:78-79 | once a prefix of the names fails, the later names are never tried |
| Directories.CreateAllIdempotent | src/main.c:64-87 | repeating a successful run succeeds and changes nothing |
| Directories.AllPresentCreateNothing | src/main.c:41-44 | names that all exist already succeed with no change |
| Directories.WorkingCopy | src/main.c:69-73 | the working copy is a prefix of the buffered path, one character shorter exactly when the buffered path ends with a separator |
| Directories.Normalized | src/main.c:80 | the buffer after the loop: every separator after index 0 rewritten to '/'; `NormalizedKeepsSlashes` and `NestedAttemptsUseSlash` state what this leaves |
| Directories.NestedAttempts | src/main.c:75-84 | the names handed to `create_directory`, in order; `NestedAttemptsIndexed` and `NestedAttemptsArePrefixes` state which they are |
| Directories.NormalizedKeepsSlashes | src/main.c:80 | rewriting separators to '/' changes nothing in a path without '\' |
| Directories.SeparatorCuts | src/main.c:75-76 | the loop stops only at separators from its start index on, in increasing order |
| Directories.SeparatorCutsComplete | src/main.c:75-76 | the loop stops at every separator from its start index on |
| Directories.SeparatorCutsSkip | src/main.c:75-76 | a stretch without separators adds no stop |
| Directories.Prefixes | src/main.c:77-78 | each stop attempts the prefix before it |
| Directories.NestedAttemptsIndexed | src/main.c:75-84 | there is one attempt per separator at index 1 or later, each the rewritten prefix before it, followed by the whole working copy |
| Directories.NestedAttemptsArePrefixes | src/main.c:75-84 | the attempts are strictly growing prefixes of the rewritten working copy, and the last is all of it |
| Directories.AttemptsArePrefixes | src/main.c:75-84 | the same holds for the attempts over any working copy |
| Directories.NestedAttemptsCutAtSeparators | src/main.c:75-78 | every attempt but the last ends just before a separator, and every separator after index 0 has its attempt |
| Directories.NestedAttemptsUseSlash | src/main.c:80 | no attempted name holds '\' after its first character |
| Directories.AttemptsFromStep | src/main.c:75-81 | at a separator the loop attempts the current prefix before moving on; elsewhere it only moves on |
| Directories.BufferStep | src/main.c:77-80 | the buffer is the rewritten prefix followed by the untouched rest, before and after each step |
| Directories.LoopStep | src/main.c:75-82 | one pass of the loop: at a separator the current prefix is created first and the run continues only on success; elsewhere the remaining run is unchanged |
| Directories.LoopEnd | src/main.c:83-84 | after the last separator only the whole rewritten buffer is created |
| Directories.CreateNestedDirectories | src/main.c:64-87 | `create_nested_directories` as a run of `create_directory` over its attempts; `CreateNestedInPlace` proves the in-place loop equal to it, `NestedAttemptsIndexed` gives the attempts and `CreateAllSuccess` what a success adds |
| Directories.CreateNestedDirectoriesEffect | src/main.c:64-87 | only attempted names become directories and nothing else changes; on success the whole rewritten working copy exists; a failure names a refused attempt that is not a non-directory |
| Directories.CreateNestedInPlace | src/main.c:64-87 | copying the path into the buffer and walking it gives the same status and file system as the declarative run of attempts |
| Directories.CreateAlongBuffer | src/main.c:75-86 | the in-place loop over the working copy returns the same status and file system as the run of its attempts |
| Extractor.Materialize | src/main.c:97-151 | an empty sanitised path is skipped; a destination of 260 or more characters aborts; otherwise the destination is `root/path`, and its parent (as `strrchr` finds it) is either the per-entry root, which the guard skips, or a different directory planned for creation |
| Extractor.CollisionGuard | src/main.c:119-151 | for a non-empty, short enough path, the guard fires iff the sanitised path has no '/' and the output directory equals the per-entry root |
| Extractor.WriteEntry | src/main.c:161-202 | the first failing call decides: an unopenable or empty entry is skipped, a failed read or output open aborts, all with no change; once the output opens, its file exists, and a short write or a failed close aborts; only full success records the entry's bytes at the destination |
| Extractor.HonoursGuard | src/main.c:148-151 | only the guard's plan yields the guard's skip, and only a materialised entry is extracted, with its bytes at the planned destination |
| Extractor.Carry | src/main.c:148-202 | the plan's skips and abort change nothing; a failure to create the parent's directories aborts, keeping what that creation made; once they exist, the directories are exactly those the creation left, the destination is added exactly when `fopen` succeeds, and the outcome is the entry's own delivery; an extracted file's ancestors all exist |
| Extractor.ProcessEntry | src/main.c:96-206 | one entry never removes a directory or file and never changes what `mkdir` refuses; an extracted destination is a file afterwards, and every directory attempted for its parent exists |
| Extractor.ProcessEntryExplained | src/main.c:96-206 | each entry's outcome is the one its path, the refused names and its own answers account for; a directory failure needs a refused ancestor |
| Extractor.NoneAbortedCons | src/main.c:96-207 | a run with a first decision has no abort iff that decision is not one and the rest has none |
| Extractor.ExtractEntries | src/main.c:96-209 | the status is 0 or 1; there is at most one decision per entry, and one for every entry when the status is 0; the file system only grows |
| Extractor.ProcessEntryAddsOnlyPlanned | src/main.c:96-206 | one entry adds no directory but the attempts for its planned parent, and no file but its planned destination |
| Extractor.ExtractEntriesDirsPlanned | src/main.c:96-209 | every directory the loop adds is attempted for the parent of one of the entries it processed |
| Extractor.ExtractEntriesFilesPlanned | src/main.c:96-209 | every file the loop adds is the destination of one of the entries it processed |
| Extractor.ExtractEntriesStatus | src/main.c:96-209 | the status is 0 iff no decision aborts; with status 1 the last decision is the fatal one |
| Extractor.ExtractEntriesStopsAtFirstFatal | src/main.c:96-209 | a failed loop stops at its first fatal outcome: every decision before the last one lets the loop go on |
| Extractor.ExtractVpk | src/main.c:89-94 | an archive without entries fails and changes nothing |
| Extractor.RunExtractor | src/main.c:212-257 | a wrong argument count or an unloadable archive exits 1 with no change; otherwise the start-up root is created, a failure there exits 1 with no decision, and the entries are extracted under that root; success means one decision per entry of a non-empty archive |
| Extractor.ExtractEntriesExplained | src/main.c:96-207 | every recorded decision is the one its entry's path, the refused names and the entry's answers account for, and an extracted destination is a file at the end |
| Extractor.ExtractedUnderDirectories | src/main.c:96-209 | at the end of the loop, every directory attempted for an extracted file's parent is a directory, or is a non-directory at the end of the run |
| Extractor.ProcessEntryKeepsWork | src/main.c:148-202 | whatever one entry's outcome, once its directory creation succeeded every attempt for its parent is a directory or a non-directory, and once `fopen` succeeded its destination is a file |
| Extractor.KeptGrows | src/main.c:96-209 | what an entry left in place stays in place as the file system only gains names |
| Extractor.ExtractEntriesKeepsWork | src/main.c:96-209 | every processed entry that got past its directory creation, the fatal last one included, leaves all its parent's attempts as directories or non-directories at the end of the loop, and its output file once `fopen` succeeded |
| Extractor.TopLevelEntriesSkipped | src/main.c:143-151 | under the start-up root, every non-empty, short top-level entry is skipped and only nested entries are written, unless the archive's name is ".vpk", where the guard never fires |
| WorkedCases.FooStartupRoot | src/main.c:225-240 | "foo.vpk" gives the start-up root "foo_dir" |
| WorkedCases.FooPerEntryRoot | src/main.c:127-144 | "foo.vpk" gives the per-entry root "foo_dir" |
| WorkedCases.FooRootCreated | src/main.c:243 | creating "foo_dir" in an empty tree makes exactly it |
| WorkedCases.FooBarAttempts | src/main.c:64-87 | creating "foo_dir/bar" attempts "foo_dir", then "foo_dir/bar" |
| WorkedCases.NestedEntryDirectories | src/main.c:155 | with "foo_dir" present, creating "foo_dir/bar" adds just it |
| WorkedCases.SingleEntryRun | src/main.c:89-209 | an archive with one entry records exactly that entry's decision, and exits 1 iff it is fatal |
| WorkedCases.NestedEntryStep | src/main.c:96-206 | the entry "bar/baz.txt" with the bytes of "hello" makes "foo_dir/bar" and writes those bytes to "foo_dir/bar/baz.txt" |
| WorkedCases.NestedEntryPlan | src/main.c:97-151 | "bar/baz.txt" under "foo_dir" is planned at "foo_dir/bar/baz.txt" with parent "foo_dir/bar" |
| WorkedCases.NestedEntryExample | src/main.c:212-257 | "foo.vpk" holding "bar/baz.txt" with "hello" makes both directories, writes exactly those five bytes, and exits 0 |
| WorkedCases.TopLevelEntryPlan | src/main.c:143-151 | "readme.txt" under "foo_dir" is caught by the guard |
| WorkedCases.TopLevelEntryExample | src/main.c:148-151 | "foo.vpk" holding a top-level "readme.txt" writes no file and exits 0 |

## Left out

- Logging (`printf`, `perror`) is not modelled; it has no effect on results.
- The `_WIN32` branches (`_mkdir`, `direct.h`) are left out. They behave like the POSIX branch in this model.
- `stat`, `mkdir` and `errno` become membership in the three sets of `FileSystem`. Permissions (mode 0755) and races with other processes are not modelled.
- The archive library is left out: `vpk_load`, `vpk_ffirst`, `vpk_fnext`, `vpk_fopen`, `vpk_flen`, `vpk_malloc_and_read`. Their answers are fields of `Entry`, or `None` for a failed load.
- `vpk_fread`'s result is ignored by the source, so the entry's bytes are taken as its data.
- `vpk_fclose`, `vpk_close` and freeing memory are not modelled: they release resources only. The buffer from `vpk_malloc_and_read` is never freed in the source.
- Extractor.WriteEntry: after a short write the file exists, but its partial contents are not modelled. Only its presence among the non-directories is recorded.
- EntryPaths.ParentDirectory: the `strncpy` at line 123 and the terminator written after it are not modelled; they copy exactly the prefix before the last '/', which is what the function returns.
- Directories.CreateNestedInPlace: the zero padding that `strncpy` writes at line 69 is not modelled. On an empty working copy the loop reads that padding at `tmp[1]` and stops at once, so only the final, empty name is tried, as in the model.
- Directory names are compared as strings. "x" and "x/", or "x//y" and "x/y", are different names here, while `stat` and `mkdir` resolve them to the same directory. Repeated or trailing separators in an entry's path can therefore record extra names where the program touches one directory. Sanitisation keeps `..` segments, so an entry such as `../x` is written outside the output root by the program, while under the root `foo_dir` the model records the name `foo_dir/../x`.
- `Entry.outputOpens` stands for the answer of `fopen` at line 186 and is not tied to the modelled file system. The model can therefore extract a file under a name that is already a non-directory, or below one, where `fopen` in the program would fail (for example with ENOTDIR).
- The names `mkdir` refuses are fixed for the whole run. In the program a refusal such as ENOENT or ENOTDIR depends on what exists at the moment of the call.
- `MAX_PATH_LENGTH` (260) and the 1024-byte buffers count bytes in C (`strlen`, `sizeof`) but characters here. A path with multi-byte characters that the model accepts can be too long, or be truncated at a different point, in the program.
- Characters are Dafny `char`s, not bytes. `isspace` is the C-locale set, and the string terminator never occurs inside a modelled string.
- Extractor.RunExtractor: the program name `argv[0]` is an ordinary element of the argument list. Process exit is the returned status.

=== FILE: cstrings.dfy ===
/** The pieces of the C library that vpk-extractor's path handling leans on:
    the C-locale `isspace` class, the two path separators, the fixed
    1024-character path buffers, and `strrchr`. A C string is modelled by the
    characters before its terminator, so it holds no '\0'. */
module CStrings {

  datatype Option<+T> = None | Some(value: T)

  /** `isspace` in the C locale: space, tab, newline, vertical tab, form feed,
      carriage return. */
  predicate IsSpace(c: char) {
    c == ' ' || c == '\t' || c == '\n' || c == '\U{000B}' || c == '\U{000C}' || c == '\r'
  }

  /** Either of the separators the extractor recognises in archive paths. */
  predicate IsSeparator(c: char) {
    c == '/' || c == '\\'
  }

  /** Size of every `char[...]` path buffer in the extractor. */
  const BufferSize: nat := 1024

  /** What a `char[BufferSize]` holds after `strncpy` plus an explicit
      terminator, or after `snprintf`: the longest prefix that leaves room for
      the terminator. */
  function Buffered(s: string): (r: string)
    ensures r <= s
    ensures |r| == if |s| < BufferSize then |s| else BufferSize - 1
  {
    if |s| < BufferSize then s else s[..BufferSize - 1]
  }

  /** A character missing from a string is missing from its prefixes. */
  lemma AbsentFromPrefix(x: string, s: string, c: char)
    requires x <= s && c !in s
    ensures c !in x
  {
  }

  /** The index of the last `c` among the first `n` characters, if any. */
  function LastIndexBelow(s: string, c: char, n: nat): (r: Option<nat>)
    requires n <= |s|
    ensures r.None? <==> forall j :: 0 <= j < n ==> s[j] != c
    ensures r.Some? ==> r.value < n && s[r.value] == c
    ensures r.Some? ==> forall j :: r.value < j < n ==> s[j] != c
  {
    if n == 0 then None
    else if s[n - 1] == c then Some(n - 1)
    else LastIndexBelow(s, c, n - 1)
  }

  /** `strrchr`: the index of the last occurrence of `c`, if any. */
  function LastIndexOf(s: string, c: char): (r: Option<nat>)
    ensures r.None? <==> c !in s
    ensures r.Some? ==> r.value < |s| && s[r.value] == c
    ensures r.Some? ==> forall j :: r.value < j < |s| ==> s[j] != c
  {
    LastIndexBelow(s, c, |s|)
  }

  /** The last occurrence is the only occurrence with no `c` after it. */
  lemma LastIndexOfUnique(s: string, c: char, i: nat)
    requires i < |s| && s[i] == c
    requires forall j :: i < j < |s| ==> s[j] != c
    ensures LastIndexOf(s, c) == Some(i)
  {
  }

  /** `strrchr` on a concatenation finds an occurrence in the right part first. */
  lemma LastIndexOfAppendRight(a: string, b: string, c: char)
    requires c in b
    ensures LastIndexOf(a + b, c) == Some(|a| + LastIndexOf(b, c).value)
  {
    var k := LastIndexOf(b, c).value;
    var s := a + b;
    assert s[|a| + k] == c;
    forall j | |a| + k < j < |s|
      ensures s[j] != c
    {
      assert s[j] == b[j - |a|];
    }
    LastIndexOfUnique(s, c, |a| + k);
  }

  /** Without an occurrence in the right part, `strrchr` answers as for the left part. */
  lemma LastIndexOfAppendLeft(a: string, b: string, c: char)
    requires c !in b
    ensures LastIndexOf(a + b, c) == LastIndexOf(a, c)
  {
    var s := a + b;
    forall j | |a| <= j < |s|
      ensures s[j] != c
    {
      assert s[j] == b[j - |a|];
    }
    if c in a {
      var k := LastIndexOf(a, c).value;
      LastIndexOfUnique(s, c, k);
    } else {
      forall j | 0 <= j < |a|
        ensures s[j] != c
      {
        assert s[j] == a[j];
      }
      assert c !in s;
    }
  }
}

=== FILE: directories.dfy ===
/** Directory creation over an abstract file system. `stat`, `mkdir` and
    `errno` are replaced by three sets of names: existing directories,
    existing non-directories (for which `mkdir` reports EEXIST), and names
    whose `mkdir` fails with any other error. */
module Directories {
  import opened CStrings

  datatype FileSystem = FileSystem(dirs: set<string>, files: set<string>, refused: set<string>)

  /** A status (`true` for the source's 0) and the file system afterwards. */
  datatype Created = Created(ok: bool, fs: FileSystem)

  /** `create_directory`: an existing directory, or a name `mkdir` reports as
      already existing, is a success that changes nothing; otherwise the
      directory is made unless `mkdir` refuses. */
  function CreateDirectory(fs: FileSystem, dir: string): (r: Created)
    ensures r.fs.files == fs.files && r.fs.refused == fs.refused
    ensures r.ok <==> dir in fs.dirs || dir in fs.files || dir !in fs.refused
    ensures r.ok ==> r.fs.dirs == fs.dirs + (if dir in fs.files then {} else {dir})
    ensures !r.ok ==> r.fs == fs
    ensures dir in fs.dirs ==> r == Created(true, fs)
  {
    if dir in fs.dirs then Created(true, fs)
    else if dir in fs.files then Created(true, fs)
    else if dir in fs.refused then Created(false, fs)
    else Created(true, fs.(dirs := fs.dirs + {dir}))
  }

  /** `create_directory` called twice on one name answers and leaves the
      file system as a single call does. */
  lemma CreateDirectoryIdempotent(fs: FileSystem, dir: string)
    ensures CreateDirectory(fs, dir).ok ==>
      CreateDirectory(CreateDirectory(fs, dir).fs, dir) == CreateDirectory(fs, dir)
  {
  }

  /** Call `create_directory` on each name in turn, stopping at the first
      failure. */
  function CreateAll(fs: FileSystem, names: seq<string>): (r: Created)
    ensures r.fs.files == fs.files && r.fs.refused == fs.refused
    ensures fs.dirs <= r.fs.dirs
    ensures forall d :: d in r.fs.dirs ==> d in fs.dirs || d in names
    ensures r.ok ==> forall n :: n in names ==> n in r.fs.dirs || n in fs.files
    ensures !r.ok ==> exists k :: 0 <= k < |names| && names[k] in fs.refused && names[k] !in fs.files
    decreases |names|
  {
    if names == [] then Created(true, fs)
    else
      var first := CreateDirectory(fs, names[0]);
      if !first.ok then first else CreateAll(first.fs, names[1..])
  }

  /** Unfolding a run at its first name. */
  lemma CreateAllFirst(fs: FileSystem, x: string, rest: seq<string>)
    ensures CreateAll(fs, [x] + rest)
      == if CreateDirectory(fs, x).ok then CreateAll(CreateDirectory(fs, x).fs, rest) else CreateDirectory(fs, x)
  {
    assert ([x] + rest)[0] == x && ([x] + rest)[1..] == rest;
  }

  /** A successful run adds exactly the names that were not already
      non-directories. */
  lemma {:induction false} CreateAllSuccess(fs: FileSystem, names: seq<string>)
    requires CreateAll(fs, names).ok
    ensures CreateAll(fs, names).fs.dirs == fs.dirs + (set n | n in names && n !in fs.files)
    decreases |names|
  {
    if names != [] {
      var first := CreateDirectory(fs, names[0]);
      CreateAllSuccess(first.fs, names[1..]);
      assert forall n :: n in names <==> n == names[0] || n in names[1..];
    }
  }

  /** Once a prefix of the names fails, the names after it are never tried. */
  lemma {:induction false} CreateAllStopsAtFailure(fs: FileSystem, names: seq<string>, k: nat)
    requires k <= |names|
    requires !CreateAll(fs, names[..k]).ok
    ensures CreateAll(fs, names) == CreateAll(fs, names[..k])
    decreases k
  {
    assert k > 0;
    var first := CreateDirectory(fs, names[0]);
    if first.ok {
      assert names[..k][1..] == names[1..][..k - 1];
      CreateAllStopsAtFailure(first.fs, names[1..], k - 1);
    }
  }

  /** Repeating a successful run succeeds and changes nothing. */
  lemma {:induction false} CreateAllIdempotent(fs: FileSystem, names: seq<string>)
    requires CreateAll(fs, names).ok
    ensures CreateAll(CreateAll(fs, names).fs, names) == Created(true, CreateAll(fs, names).fs)
  {
    var after := CreateAll(fs, names).fs;
    CreateAllSuccess(fs, names);
    AllPresentCreateNothing(after, names);
  }

  /** Names that are all directories or non-directories already succeed
      without change. */
  lemma {:induction false} AllPresentCreateNothing(fs: FileSystem, names: seq<string>)
    requires forall n :: n in names ==> n in fs.dirs || n in fs.files
    ensures CreateAll(fs, names) == Created(true, fs)
  {
    if names != [] {
      assert names[0] in names;
      assert forall n :: n in names[1..] ==> n in names;
      AllPresentCreateNothing(fs, names[1..]);
    }
  }

  /** The copy `create_nested_directories` works on: the path in a
      1024-character buffer with one trailing separator removed. */
  function WorkingCopy(path: string): (t: string)
    ensures t <= Buffered(path)
    ensures |Buffered(path)| - 1 <= |t|
    ensures |t| < |Buffered(path)| <==> |Buffered(path)| > 0 && IsSeparator(Buffered(path)[|Buffered(path)| - 1])
  {
    var tmp := Buffered(path);
    if |tmp| > 0 && IsSeparator(tmp[|tmp| - 1]) then tmp[..|tmp| - 1] else tmp
  }

  /** The working copy once the loop has rewritten every separator after
      index 0 to '/'. */
  function Normalized(t: string): string {
    seq(|t|, i requires 0 <= i < |t| => if 1 <= i && t[i] == '\\' then '/' else t[i])
  }

  /** A copy without '\\' is left as it is. */
  lemma NormalizedKeepsSlashes(t: string)
    requires '\\' !in t
    ensures Normalized(t) == t
  {
  }

  /** The indices from `from` on that hold a separator, in increasing order. */
  function SeparatorCuts(t: string, from: nat): (r: seq<nat>)
    decreases |t| - from
    ensures forall k :: 0 <= k < |r| ==> from <= r[k] < |t| && IsSeparator(t[r[k]])
    ensures forall k, l :: 0 <= k < l < |r| ==> r[k] < r[l]
  {
    if from >= |t| then []
    else if IsSeparator(t[from]) then [from] + SeparatorCuts(t, from + 1)
    else SeparatorCuts(t, from + 1)
  }

  /** Every separator from `from` on is a cut. */
  lemma {:induction false} SeparatorCutsComplete(t: string, from: nat, i: nat)
    requires from <= i < |t| && IsSeparator(t[i])
    ensures i in SeparatorCuts(t, from)
    decreases |t| - from
  {
    if from < i {
      SeparatorCutsComplete(t, from + 1, i);
    }
  }

  /** A stretch without separators contributes no cuts. */
  lemma {:induction false} SeparatorCutsSkip(t: string, from: nat, to: nat)
    requires from <= to <= |t|
    requires forall i :: from <= i < to ==> !IsSeparator(t[i])
    ensures SeparatorCuts(t, from) == SeparatorCuts(t, to)
    decreases |t| - from
  {
    if from < to {
      SeparatorCutsSkip(t, from + 1, to);
    }
  }

  /** The prefixes of `s` that end before each cut. */
  function Prefixes(s: string, cuts: seq<nat>): (r: seq<string>)
    requires forall k :: 0 <= k < |cuts| ==> cuts[k] <= |s|
    ensures |r| == |cuts|
    ensures forall k :: 0 <= k < |r| ==> r[k] == s[..cuts[k]]
  {
    if cuts == [] then [] else [s[..cuts[0]]] + Prefixes(s, cuts[1..])
  }

  /** The names still to be tried once the loop has reached index `from`. */
  function AttemptsFrom(t: string, from: nat): seq<string> {
    Prefixes(Normalized(t), SeparatorCuts(t, from)) + [Normalized(t)]
  }

  /** Every name `create_nested_directories` hands to `create_directory`, in
      order: the prefix before each separator at index 1 or later, then the
      whole working copy. */
  function NestedAttempts(path: string): seq<string> {
    AttemptsFrom(WorkingCopy(path), 1)
  }

  /** `create_nested_directories`, as a run over its attempts. */
  function CreateNestedDirectories(fs: FileSystem, path: string): Created {
    CreateAll(fs, NestedAttempts(path))
  }

  /** `create_nested_directories` only adds its attempts; on success the whole
      rewritten working copy exists, and a failure names a refused attempt. */
  lemma CreateNestedDirectoriesEffect(fs: FileSystem, path: string)
    ensures var r := CreateNestedDirectories(fs, path);
      && r.fs.files == fs.files && r.fs.refused == fs.refused && fs.dirs <= r.fs.dirs
      && (forall d :: d in r.fs.dirs ==> d in fs.dirs || d in NestedAttempts(path))
      && (r.ok ==> Normalized(WorkingCopy(path)) in r.fs.dirs || Normalized(WorkingCopy(path)) in fs.files)
      && (!r.ok ==> exists n :: n in NestedAttempts(path) && n in fs.refused && n !in fs.files)
  {
    var a := NestedAttempts(path);
    assert a[|a| - 1] == Normalized(WorkingCopy(path));
  }

  /** The attempts indexed by the separator cuts from index 1 on. */
  lemma NestedAttemptsIndexed(path: string)
    ensures var t := WorkingCopy(path); var cuts := SeparatorCuts(t, 1); var a := NestedAttempts(path);
      && |a| == |cuts| + 1
      && a[|cuts|] == Normalized(t)
      && forall k :: 0 <= k < |cuts| ==> a[k] == Normalized(t)[..cuts[k]]
  {
  }

  /** Every name in `a` is a prefix of `s`, and the names grow strictly. */
  predicate GrowingPrefixes(a: seq<string>, s: string) {
    && (forall k :: 0 <= k < |a| ==> a[k] <= s)
    && (forall k, l :: 0 <= k < l < |a| ==> |a[k]| < |a[l]|)
  }

  /** The attempts grow strictly, each is a prefix of the rewritten working
      copy, and the last is the whole of it. */
  lemma NestedAttemptsArePrefixes(path: string)
    ensures var t := WorkingCopy(path); var a := NestedAttempts(path);
      && |a| >= 1
      && a[|a| - 1] == Normalized(t)
      && GrowingPrefixes(a, Normalized(t))
  {
    AttemptsArePrefixes(WorkingCopy(path));
  }

  /** The same for any working copy. */
  lemma AttemptsArePrefixes(t: string)
    ensures var a := AttemptsFrom(t, 1);
      && |a| >= 1
      && a[|a| - 1] == Normalized(t)
      && GrowingPrefixes(a, Normalized(t))
  {
    var n := Normalized(t);
    assert |n| == |t|;
    PrefixesThenWhole(n, SeparatorCuts(t, 1));
  }

  /** Prefixes at increasing cuts inside `s`, followed by `s`, grow strictly. */
  lemma PrefixesThenWhole(s: string, cuts: seq<nat>)
    requires forall k :: 0 <= k < |cuts| ==> cuts[k] < |s|
    requires forall k, l :: 0 <= k < l < |cuts| ==> cuts[k] < cuts[l]
    ensures GrowingPrefixes(Prefixes(s, cuts) + [s], s)
  {
    var a := Prefixes(s, cuts) + [s];
    forall k | 0 <= k < |a|
      ensures a[k] <= s
      ensures |a[k]| == if k < |cuts| then cuts[k] else |s|
    {
      if k < |cuts| {
        assert a[k] == s[..cuts[k]];
      }
    }
  }

  /** Every attempt but the last ends just before a separator at index 1 or
      later of the working copy, and every such separator has its attempt. */
  lemma NestedAttemptsCutAtSeparators(path: string)
    ensures var t := WorkingCopy(path); var a := NestedAttempts(path);
      && (forall k :: 0 <= k < |a| - 1 ==> 1 <= |a[k]| < |t| && IsSeparator(t[|a[k]|]))
      && (forall i :: 1 <= i < |t| && IsSeparator(t[i]) ==> Normalized(t)[..i] in a)
  {
    var t := WorkingCopy(path);
    var cuts := SeparatorCuts(t, 1);
    var a := NestedAttempts(path);
    NestedAttemptsIndexed(path);
    forall i | 1 <= i < |t| && IsSeparator(t[i])
      ensures Normalized(t)[..i] in a
    {
      SeparatorCutsComplete(t, 1, i);
      var k :| 0 <= k < |cuts| && cuts[k] == i;
      assert a[k] == Normalized(t)[..i];
    }
  }

  /** Line 80 rewrites every separator the loop passes: no attempted name has
      a '\' after index 0. */
  lemma NestedAttemptsUseSlash(path: string)
    ensures var a := NestedAttempts(path);
      forall k, j :: 0 <= k < |a| && 1 <= j < |a[k]| ==> a[k][j] != '\\'
  {
    NestedAttemptsArePrefixes(path);
  }

  /** One step of the loop: a separator at `from` puts its prefix first. */
  lemma AttemptsFromStep(t: string, from: nat)
    requires 1 <= from < |t|
    ensures IsSeparator(t[from]) ==>
      AttemptsFrom(t, from) == [Normalized(t)[..from]] + AttemptsFrom(t, from + 1)
    ensures !IsSeparator(t[from]) ==> AttemptsFrom(t, from) == AttemptsFrom(t, from + 1)
  {
    if IsSeparator(t[from]) {
      AttemptsFromAtSeparator(t, from);
    } else {
      assert SeparatorCuts(t, from) == SeparatorCuts(t, from + 1);
    }
  }

  lemma AttemptsFromAtSeparator(t: string, from: nat)
    requires 1 <= from < |t| && IsSeparator(t[from])
    ensures AttemptsFrom(t, from) == [Normalized(t)[..from]] + AttemptsFrom(t, from + 1)
  {
    var rest := SeparatorCuts(t, from + 1);
    assert SeparatorCuts(t, from) == [from] + rest;
    PrefixesCons(Normalized(t), from, rest);
  }

  /** Unfolding `Prefixes` at its first cut, with the whole string after. */
  lemma PrefixesCons(s: string, c: nat, cuts: seq<nat>)
    requires c <= |s|
    requires forall k :: 0 <= k < |cuts| ==> cuts[k] <= |s|
    ensures Prefixes(s, [c] + cuts) + [s] == [s[..c]] + (Prefixes(s, cuts) + [s])
  {
    assert ([c] + cuts)[0] == c && ([c] + cuts)[1..] == cuts;
  }

  /** How the loop's buffer relates to the working copy as the index moves on. */
  lemma BufferStep(t: string, p: nat, tmp: string)
    requires 1 <= p < |t|
    requires tmp == Normalized(t)[..p] + t[p..]
    ensures tmp[..p] == Normalized(t)[..p] && tmp[p] == t[p]
    ensures IsSeparator(t[p]) ==> tmp[p := '/'] == Normalized(t)[..p + 1] + t[p + 1..]
    ensures !IsSeparator(t[p]) ==> tmp == Normalized(t)[..p + 1] + t[p + 1..]
  {
    var n := Normalized(t);
    assert tmp[p] == t[p];
    if IsSeparator(t[p]) {
      assert n[p] == '/';
      assert tmp[p := '/'] == n[..p + 1] + t[p + 1..];
    } else {
      assert n[p] == t[p];
      assert tmp == n[..p + 1] + t[p + 1..];
    }
  }

  /** One pass of the loop, in terms of what is left to attempt: at a
      separator the current prefix is created first, and the buffer gets '/'
      there; elsewhere nothing is attempted and the buffer already agrees. */
  lemma LoopStep(fs: FileSystem, t: string, p: nat, tmp: string)
    requires 1 <= p < |t|
    requires tmp == Normalized(t)[..p] + t[p..]
    ensures tmp[..p] == Normalized(t)[..p] && tmp[p] == t[p]
    ensures IsSeparator(tmp[p]) ==>
      && CreateAll(fs, AttemptsFrom(t, p))
         == (if CreateDirectory(fs, tmp[..p]).ok
             then CreateAll(CreateDirectory(fs, tmp[..p]).fs, AttemptsFrom(t, p + 1))
             else CreateDirectory(fs, tmp[..p]))
      && tmp[p := '/'] == Normalized(t)[..p + 1] + t[p + 1..]
    ensures !IsSeparator(tmp[p]) ==>
      && CreateAll(fs, AttemptsFrom(t, p)) == CreateAll(fs, AttemptsFrom(t, p + 1))
      && tmp == Normalized(t)[..p + 1] + t[p + 1..]
  {
    AttemptsFromStep(t, p);
    BufferStep(t, p, tmp);
    if IsSeparator(tmp[p]) {
      CreateAllFirst(fs, tmp[..p], AttemptsFrom(t, p + 1));
    }
  }

  /** Past the last separator only the whole rewritten copy is left. */
  lemma LoopEnd(fs: FileSystem, t: string, p: nat)
    requires p >= |t| && p >= 1
    ensures CreateAll(fs, AttemptsFrom(t, p)) == CreateDirectory(fs, Normalized(t))
  {
    assert AttemptsFrom(t, p) == [Normalized(t)] + [];
    CreateAllFirst(fs, Normalized(t), []);
  }

  /** `create_nested_directories` as written: the path is copied into the
      buffer, a trailing separator is cut, and the buffer is then walked in
      place. It agrees with the run over `NestedAttempts`. */
  method CreateNestedInPlace(fs: FileSystem, path: string) returns (ok: bool, fs': FileSystem)
    ensures Created(ok, fs') == CreateNestedDirectories(fs, path)
  {
    var tmp := Buffered(path);
    if |tmp| > 0 && IsSeparator(tmp[|tmp| - 1]) {
      tmp := tmp[..|tmp| - 1];
    }
    assert tmp == WorkingCopy(path);
    ok, fs' := CreateAlongBuffer(fs, tmp);
  }

  /** The loop of `create_nested_directories` over the working copy `t`: each
      separator after index 0 is blanked while its prefix is created and then
      set to '/'; the whole buffer is created last. */
  method CreateAlongBuffer(fs: FileSystem, t: string) returns (ok: bool, fs': FileSystem)
    ensures Created(ok, fs') == CreateAll(fs, AttemptsFrom(t, 1))
  {
    var tmp := t;
    fs' := fs;
    var p := 1;
    while p < |tmp|
      invariant |tmp| == |t|
      invariant 1 <= p && (p <= |t| || |t| == 0)
      invariant |t| == 0 ==> tmp == t
      invariant p <= |t| ==> tmp == Normalized(t)[..p] + t[p..]
      invariant CreateAll(fs, AttemptsFrom(t, 1)) == CreateAll(fs', AttemptsFrom(t, p))
    {
      LoopStep(fs', t, p, tmp);
      if IsSeparator(tmp[p]) {
        var r := CreateDirectory(fs', tmp[..p]);
        if !r.ok {
          return false, r.fs;
        }
        fs' := r.fs;
        tmp := tmp[p := '/'];
      }
      p := p + 1;
    }
    assert tmp == Normalized(t);
    LoopEnd(fs', t, p);
    var r := CreateDirectory(fs', tmp);
    ok, fs' := r.ok, r.fs;
  }
}

=== FILE: entry_paths.dfy ===
/** How an archive entry's path becomes a destination on disk: leading
    whitespace and one leading separator are dropped, the result is placed
    under the output directory, the whole is bounded by MaxPathLength, and the
    parent directory is everything before the last '/'. */
module EntryPaths {
  import opened CStrings

  /** `MAX_PATH_LENGTH`: destinations must be strictly shorter. */
  const MaxPathLength: nat := 260

  /** `trim_leading`: skip the maximal prefix of `isspace` characters. */
  function TrimLeading(s: string): (r: string)
    ensures |r| <= |s| && r == s[|s| - |r|..]
    ensures forall i :: 0 <= i < |s| - |r| ==> IsSpace(s[i])
    ensures r == [] || !IsSpace(r[0])
  {
    if |s| > 0 && IsSpace(s[0]) then TrimLeading(s[1..]) else s
  }

  /** At most one leading separator is dropped. */
  function StripOneSeparator(s: string): (r: string)
    ensures |r| <= |s| && |s| - |r| <= 1 && r == s[|s| - |r|..]
    ensures |r| < |s| <==> |s| > 0 && IsSeparator(s[0])
  {
    if |s| > 0 && IsSeparator(s[0]) then s[1..] else s
  }

  /** The relative path an entry is extracted under; empty means "skip". */
  function Sanitize(raw: string): (r: string)
    ensures |r| <= |raw| && r == raw[|raw| - |r|..]
    ensures forall i :: 0 <= i < |raw| - |r| - 1 ==> IsSpace(raw[i])
    ensures |r| < |raw| ==> IsSpace(raw[|raw| - |r| - 1]) || IsSeparator(raw[|raw| - |r| - 1])
  {
    StripOneSeparator(TrimLeading(raw))
  }

  /** A whitespace prefix followed by anything that does not start with
      whitespace trims to exactly that remainder. */
  lemma {:induction false} TrimLeadingExact(ws: string, rest: string)
    requires forall i :: 0 <= i < |ws| ==> IsSpace(ws[i])
    requires rest == [] || !IsSpace(rest[0])
    ensures TrimLeading(ws + rest) == rest
  {
    if ws == [] {
      assert ws + rest == rest;
    } else {
      assert (ws + rest)[0] == ws[0];
      assert (ws + rest)[1..] == ws[1..] + rest;
      TrimLeadingExact(ws[1..], rest);
    }
  }

  /** Sanitisation, stated independently of how it is computed: the input is
      split uniquely into its whitespace prefix and a remainder, and only a
      separator at the head of that remainder is dropped. */
  lemma SanitizeCharacterization(ws: string, rest: string)
    requires forall i :: 0 <= i < |ws| ==> IsSpace(ws[i])
    requires rest == [] || !IsSpace(rest[0])
    ensures Sanitize(ws + rest) == if rest != [] && IsSeparator(rest[0]) then rest[1..] else rest
  {
    TrimLeadingExact(ws, rest);
  }

  /** Only one separator is dropped: whatever follows it, a second separator
      or more whitespace, is kept. */
  lemma SanitizeKeepsAfterFirstSeparator(ws: string, sep: char, rest: string)
    requires forall i :: 0 <= i < |ws| ==> IsSpace(ws[i])
    requires IsSeparator(sep)
    ensures Sanitize(ws + [sep] + rest) == rest
  {
    assert ws + [sep] + rest == ws + ([sep] + rest);
    SanitizeCharacterization(ws, [sep] + rest);
  }

  /** `is_valid_path`. */
  predicate IsValidPath(path: string) {
    |path| < MaxPathLength
  }

  /** The `snprintf("%s/%s")` destination in a 1024-character buffer. It is
      valid exactly when the untruncated text is short enough, and then it is
      that text: truncation never produces a valid destination. */
  function Destination(outputDir: string, rel: string): (r: string)
    ensures IsValidPath(r) <==> |outputDir| + 1 + |rel| < MaxPathLength
    ensures IsValidPath(r) ==> r == outputDir + "/" + rel
  {
    Buffered(outputDir + "/" + rel)
  }

  /** The directory part of a path: the prefix strictly before the last '/'.
      A '\' is never a split point here. */
  function ParentDirectory(path: string): (r: Option<string>)
    ensures r.None? <==> '/' !in path
    ensures r.Some? ==>
      && |r.value| < |path|
      && r.value == path[..|r.value|]
      && path[|r.value|] == '/'
      && forall j :: |r.value| < j < |path| ==> path[j] != '/'
  {
    match LastIndexOf(path, '/')
    case None => None
    case Some(i) => Some(path[..i])
  }

  /** The parent of a destination is the output directory itself for a
      top-level entry, and lies strictly inside it otherwise. */
  lemma ParentOfDestination(outputDir: string, rel: string)
    ensures '/' !in rel ==> ParentDirectory(outputDir + "/" + rel) == Some(outputDir)
    ensures '/' in rel ==>
      ParentDirectory(outputDir + "/" + rel)
        == Some(outputDir + "/" + rel[..LastIndexOf(rel, '/').value])
  {
    if '/' !in rel {
      LastIndexOfAppendLeft(outputDir + "/", rel, '/');
      LastIndexOfUnique(outputDir + "/", '/', |outputDir|);
      assert (outputDir + "/" + rel)[..|outputDir|] == outputDir;
    } else {
      LastIndexOfAppendRight(outputDir + "/", rel, '/');
      var k := LastIndexOf(rel, '/').value;
      assert (outputDir + "/" + rel)[..|outputDir| + 1 + k] == outputDir + "/" + rel[..k];
    }
  }
}

=== FILE: extractor.dfy ===
/** The extraction driver: per-entry materialisation of the destination, the
    collision guard, the per-entry outcome, the loop over entries and the
    program's top level. The archive library is replaced by a sequence of
    entries, each carrying the answers the library and the OS give for it. */
module Extractor {
  import opened CStrings
  import opened EntryPaths
  import opened OutputRoot
  import opened Directories

  newtype byte = b: int | 0 <= b < 256

  /** One archive entry, with the answers of every foreign call made for it. */
  datatype Entry = Entry(
    path: string,       // what `vpk_fpath` returns
    opens: bool,        // `vpk_fopen` returns a handle
    data: seq<byte>,    // the entry's bytes; `vpk_flen` is their count
    readOk: bool,       // `vpk_malloc_and_read` returns a buffer
    outputOpens: bool,  // `fopen(dest, "wb")` succeeds
    written: nat,       // the count `fwrite` reports
    closeOk: bool)      // `fclose` returns 0

  /** What the path handling decides before any foreign call is made. */
  datatype Plan =
    | SkipEmpty
    | TooLong
    | SkipCollision(dir: string)
    | Materialized(rel: string, dest: string, parent: Option<string>)

  /** Sanitise the entry path, bound the destination, find its parent and
      apply the collision guard against the root recomputed from the
      archive's path. */
  function Materialize(outputDir: string, archivePath: string, rawPath: string): (r: Plan)
    ensures r.SkipEmpty? <==> Sanitize(rawPath) == []
    ensures r.TooLong? <==> Sanitize(rawPath) != [] && |outputDir| + 1 + |Sanitize(rawPath)| >= MaxPathLength
    ensures r.Materialized? ==>
      && r.rel == Sanitize(rawPath)
      && r.dest == outputDir + "/" + r.rel
      && |r.dest| < MaxPathLength
      && r.parent.Some?
      && r.parent == ParentDirectory(r.dest)
      && r.parent.value != PerEntryRoot(archivePath)
    ensures r.SkipCollision? ==>
      && Some(r.dir) == ParentDirectory(outputDir + "/" + Sanitize(rawPath))
      && r.dir == PerEntryRoot(archivePath)
  {
    var rel := Sanitize(rawPath);
    if rel == [] then SkipEmpty
    else
      var dest := Destination(outputDir, rel);
      if !IsValidPath(dest) then TooLong
      else
        assert dest[|outputDir|] == '/';
        match ParentDirectory(dest)
        case None => Materialized(rel, dest, None)
        case Some(parent) =>
          if parent == PerEntryRoot(archivePath) then SkipCollision(parent)
          else Materialized(rel, dest, Some(parent))
  }

  /** The guard fires exactly for entries with no '/' in their sanitised
      path, and only when the output directory in use equals the recomputed
      root. */
  lemma CollisionGuard(outputDir: string, archivePath: string, rawPath: string)
    requires Sanitize(rawPath) != []
    requires |outputDir| + 1 + |Sanitize(rawPath)| < MaxPathLength
    ensures Materialize(outputDir, archivePath, rawPath).SkipCollision?
      <==> '/' !in Sanitize(rawPath) && outputDir == PerEntryRoot(archivePath)
  {
    var rel := Sanitize(rawPath);
    var dest := Destination(outputDir, rel);
    assert dest == outputDir + "/" + rel;
    ParentOfDestination(outputDir, rel);
    var parent := ParentDirectory(dest).value;
    var root := PerEntryRoot(archivePath);
    assert Materialize(outputDir, archivePath, rawPath).SkipCollision? <==> parent == root;
    if '/' in rel {
      RootsHaveNoSlash(archivePath);
      assert parent[|outputDir|] == '/';
      assert parent != root;
    } else {
      assert parent == outputDir;
    }
  }

  datatype SkipReason = EmptyPath | RootCollision | NotAFile | EmptyFile
  datatype Fatal = PathTooLong | DirectoryFailed | ReadFailed | OutputOpenFailed | ShortWrite | CloseFailed
  datatype Decision = Skipped(reason: SkipReason) | Aborted(fatal: Fatal) | Extracted(dest: string, data: seq<byte>)

  /** One entry's decision and the file system after it. */
  datatype Step = Step(decision: Decision, fs: FileSystem)

  /** The directories a plan may make: every attempt for its parent. */
  function PlannedDirs(plan: Plan): set<string> {
    if plan.Materialized? && plan.parent.Some? then set n | n in NestedAttempts(plan.parent.value) else {}
  }

  /** The file a plan may write: its destination. */
  function PlannedFiles(plan: Plan): set<string> {
    if plan.Materialized? then {plan.dest} else {}
  }

  /** The entry was opened, is not empty, was read, and `fopen` created its
      output file. */
  predicate OutputCreated(e: Entry) {
    e.opens && |e.data| > 0 && e.readOk && e.outputOpens
  }

  /** The decision for an entry whose directories exist: the first foreign
      call that fails decides. An entry that cannot be opened or is empty is
      skipped; every later failure stops the run. */
  predicate Delivers(e: Entry, dest: string, d: Decision) {
    && (!e.opens ==> d == Skipped(NotAFile))
    && (e.opens && |e.data| == 0 ==> d == Skipped(EmptyFile))
    && (e.opens && |e.data| > 0 && !e.readOk ==> d == Aborted(ReadFailed))
    && (e.opens && |e.data| > 0 && e.readOk && !e.outputOpens ==> d == Aborted(OutputOpenFailed))
    && (OutputCreated(e) && e.written != |e.data| ==> d == Aborted(ShortWrite))
    && (OutputCreated(e) && e.written == |e.data| && !e.closeOk ==> d == Aborted(CloseFailed))
    && (OutputCreated(e) && e.written == |e.data| && e.closeOk ==> d == Extracted(dest, e.data))
  }

  /** A decision honours its plan: the plan's skips and abort are taken as
      they are; a materialised entry either fails to get its directories,
      which needs one of them to be refused, or is delivered at the planned
      destination. */
  predicate Honours(plan: Plan, e: Entry, refused: set<string>, d: Decision) {
    match plan
    case SkipEmpty => d == Skipped(EmptyPath)
    case TooLong => d == Aborted(PathTooLong)
    case SkipCollision(_) => d == Skipped(RootCollision)
    case Materialized(_, dest, parent) =>
      if d == Aborted(DirectoryFailed) then
        parent.Some? && exists n :: n in NestedAttempts(parent.value) && n in refused
      else Delivers(e, dest, d)
  }

  /** The decision an entry's path, the refused names and the entry's own
      answers account for. */
  predicate Explains(outputDir: string, archivePath: string, refused: set<string>, e: Entry, d: Decision) {
    Honours(Materialize(outputDir, archivePath, e.path), e, refused, d)
  }

  /** Only the guard's plan yields the guard's skip, and only a materialised
      entry is extracted. */
  lemma HonoursGuard(plan: Plan, e: Entry, refused: set<string>, d: Decision)
    requires Honours(plan, e, refused, d)
    ensures d == Skipped(RootCollision) <==> plan.SkipCollision?
    ensures d.Extracted? ==> plan.Materialized? && d == Extracted(plan.dest, e.data)
  {
    if plan.Materialized? && d != Aborted(DirectoryFailed) {
      assert Delivers(e, plan.dest, d);
      if !OutputCreated(e) {
        assert !d.Extracted?;
      }
    }
  }

  /** Open, size, read and write one entry whose directories exist. The
      output file exists from the moment `fopen` succeeds, even when the
      write or the close then fails. */
  function WriteEntry(fs: FileSystem, dest: string, e: Entry): (r: Step)
    ensures r.fs.dirs == fs.dirs && r.fs.refused == fs.refused
    ensures r.fs.files == if OutputCreated(e) then fs.files + {dest} else fs.files
    ensures Delivers(e, dest, r.decision)
    ensures r.decision.Extracted? <==>
      e.opens && |e.data| > 0 && e.readOk && e.outputOpens && e.written == |e.data| && e.closeOk
  {
    if !e.opens then Step(Skipped(NotAFile), fs)
    else if |e.data| == 0 then Step(Skipped(EmptyFile), fs)
    else if !e.readOk then Step(Aborted(ReadFailed), fs)
    else if !e.outputOpens then Step(Aborted(OutputOpenFailed), fs)
    else
      var created := fs.(files := fs.files + {dest});
      if e.written != |e.data| then Step(Aborted(ShortWrite), created)
      else if !e.closeOk then Step(Aborted(CloseFailed), created)
      else Step(Extracted(dest, e.data), created)
  }

  /** The loop body of `extract_vpk` once the path handling has planned the
      entry: make the parent directories, then write the entry. */
  function Carry(fs: FileSystem, plan: Plan, e: Entry): (r: Step)
    ensures Honours(plan, e, fs.refused, r.decision)
    ensures !plan.Materialized? ==> r.fs == fs
    ensures r.fs.refused == fs.refused && fs.dirs <= r.fs.dirs && fs.files <= r.fs.files
    ensures r.fs.dirs <= fs.dirs + PlannedDirs(plan) && r.fs.files <= fs.files + PlannedFiles(plan)
    ensures plan.Materialized? && (plan.parent.Some? ==> CreateNestedDirectories(fs, plan.parent.value).ok) ==>
      && r.fs.dirs == (if plan.parent.Some? then CreateNestedDirectories(fs, plan.parent.value).fs.dirs else fs.dirs)
      && r.fs.files == (if OutputCreated(e) then fs.files + {plan.dest} else fs.files)
    ensures plan.Materialized? && plan.parent.Some? && !CreateNestedDirectories(fs, plan.parent.value).ok ==>
      r == Step(Aborted(DirectoryFailed), CreateNestedDirectories(fs, plan.parent.value).fs)
    ensures plan.Materialized? && (plan.parent.Some? ==> CreateNestedDirectories(fs, plan.parent.value).ok) ==>
      Delivers(e, plan.dest, r.decision)
    ensures r.decision.Extracted? ==>
      && r.decision.dest in r.fs.files
      && (plan.parent.Some? ==> forall n :: n in NestedAttempts(plan.parent.value) ==> n in r.fs.dirs || n in fs.files)
  {
    match plan
    case SkipEmpty => Step(Skipped(EmptyPath), fs)
    case TooLong => Step(Aborted(PathTooLong), fs)
    case SkipCollision(_) => Step(Skipped(RootCollision), fs)
    case Materialized(_, dest, parent) =>
      var made := if parent.Some? then CreateNestedDirectories(fs, parent.value) else Created(true, fs);
      if !made.ok then Step(Aborted(DirectoryFailed), made.fs)
      else WriteEntry(made.fs, dest, e)
  }

  /** One pass of the loop body of `extract_vpk`. */
  function ProcessEntry(fs: FileSystem, outputDir: string, archivePath: string, e: Entry): (r: Step)
    ensures r.fs.refused == fs.refused && fs.dirs <= r.fs.dirs && fs.files <= r.fs.files
    ensures r.decision.Extracted? ==>
      && r.decision.dest in r.fs.files
      && ParentDirectory(r.decision.dest).Some?
      && forall n :: n in NestedAttempts(ParentDirectory(r.decision.dest).value) ==> n in r.fs.dirs || n in fs.files
  {
    Carry(fs, Materialize(outputDir, archivePath, e.path), e)
  }

  /** One entry makes nothing but the directories attempted for its planned
      parent and its planned destination. */
  lemma ProcessEntryAddsOnlyPlanned(fs: FileSystem, outputDir: string, archivePath: string, e: Entry)
    ensures var r := ProcessEntry(fs, outputDir, archivePath, e);
      var plan := Materialize(outputDir, archivePath, e.path);
      r.fs.dirs <= fs.dirs + PlannedDirs(plan) && r.fs.files <= fs.files + PlannedFiles(plan)
  {
  }

  /** Each entry's decision is the one its path accounts for. */
  lemma ProcessEntryExplained(fs: FileSystem, outputDir: string, archivePath: string, e: Entry)
    ensures Explains(outputDir, archivePath, fs.refused, e, ProcessEntry(fs, outputDir, archivePath, e).decision)
  {
  }

  /** Status code (0 success, 1 failure), the final file system, and one
      decision per entry processed. */
  datatype Run = Run(status: nat, fs: FileSystem, decisions: seq<Decision>)

  /** No decision in the sequence stops the run. */
  predicate NoneAborted(decisions: seq<Decision>) {
    forall k :: 0 <= k < |decisions| ==> !decisions[k].Aborted?
  }

  lemma NoneAbortedCons(d: Decision, rest: seq<Decision>)
    ensures NoneAborted([d] + rest) <==> !d.Aborted? && NoneAborted(rest)
  {
    var ds := [d] + rest;
    assert ds[0] == d;
    assert forall k :: 0 <= k < |rest| ==> ds[k + 1] == rest[k];
    if !d.Aborted? && NoneAborted(rest) {
      forall k | 0 <= k < |ds|
        ensures !ds[k].Aborted?
      {
        if k > 0 {
          assert ds[k] == rest[k - 1];
        }
      }
    }
  }

  /** A decision that does not stop the loop, followed by the rest of the run. */
  function Continue(d: Decision, rest: Run): (r: Run)
    requires !d.Aborted?
    ensures r.status == rest.status && r.fs == rest.fs
    ensures |r.decisions| == |rest.decisions| + 1 && r.decisions[0] == d
    ensures forall k :: 0 <= k < |rest.decisions| ==> r.decisions[k + 1] == rest.decisions[k]
    ensures NoneAborted(r.decisions) <==> NoneAborted(rest.decisions)
  {
    NoneAbortedCons(d, rest.decisions);
    Run(rest.status, rest.fs, [d] + rest.decisions)
  }

  /** The `do ... while` loop of `extract_vpk` over a non-empty iteration:
      skips continue, the first fatal outcome stops the loop. */
  function ExtractEntries(fs: FileSystem, outputDir: string, archivePath: string, entries: seq<Entry>): (r: Run)
    decreases |entries|
    ensures r.status == 0 || r.status == 1
    ensures |r.decisions| <= |entries|
    ensures r.status == 0 ==> |r.decisions| == |entries|
    ensures r.fs.refused == fs.refused && fs.dirs <= r.fs.dirs && fs.files <= r.fs.files
  {
    if entries == [] then Run(0, fs, [])
    else
      var step := ProcessEntry(fs, outputDir, archivePath, entries[0]);
      if step.decision.Aborted? then Run(1, step.fs, [step.decision])
      else
        Continue(step.decision, ExtractEntries(step.fs, outputDir, archivePath, entries[1..]))
  }

  /** The loop succeeds exactly when no entry's outcome is fatal; a failed
      loop ends with the fatal outcome that stopped it. */
  lemma {:induction false} ExtractEntriesStatus(fs: FileSystem, outputDir: string, archivePath: string, entries: seq<Entry>)
    ensures var r := ExtractEntries(fs, outputDir, archivePath, entries);
      && (r.status == 0 <==> NoneAborted(r.decisions))
      && (r.status == 1 ==> |r.decisions| > 0 && r.decisions[|r.decisions| - 1].Aborted?)
    decreases |entries|
  {
    if entries != [] {
      var step := ProcessEntry(fs, outputDir, archivePath, entries[0]);
      if step.decision.Aborted? {
        NoneAbortedCons(step.decision, []);
        assert [step.decision] + [] == [step.decision];
      } else {
        var rest := ExtractEntries(step.fs, outputDir, archivePath, entries[1..]);
        ExtractEntriesStatus(step.fs, outputDir, archivePath, entries[1..]);
        var r := Continue(step.decision, rest);
        assert |rest.decisions| > 0 ==> r.decisions[|r.decisions| - 1] == rest.decisions[|rest.decisions| - 1];
      }
    }
  }

  /** The last decision is the only one that may stop the loop. */
  predicate OnlyLastAborts(decisions: seq<Decision>) {
    |decisions| > 0 && NoneAborted(decisions[..|decisions| - 1])
  }

  lemma OnlyLastAbortsCons(d: Decision, rest: seq<Decision>)
    requires !d.Aborted? && |rest| > 0
    ensures OnlyLastAborts([d] + rest) <==> OnlyLastAborts(rest)
  {
    var before := rest[..|rest| - 1];
    assert ([d] + rest)[..|rest|] == [d] + before;
    NoneAbortedCons(d, before);
  }

  /** A failed loop stopped at its first fatal outcome: every decision
      before the last one lets the loop go on. */
  lemma {:induction false} ExtractEntriesStopsAtFirstFatal(fs: FileSystem, outputDir: string, archivePath: string, entries: seq<Entry>)
    ensures var r := ExtractEntries(fs, outputDir, archivePath, entries);
      r.status == 1 ==> OnlyLastAborts(r.decisions)
    decreases |entries|
  {
    if entries != [] {
      var step := ProcessEntry(fs, outputDir, archivePath, entries[0]);
      if step.decision.Aborted? {
        assert [step.decision][..0] == [];
      } else {
        var rest := ExtractEntries(step.fs, outputDir, archivePath, entries[1..]);
        ExtractEntriesStopsAtFirstFatal(step.fs, outputDir, archivePath, entries[1..]);
        if rest.status == 1 {
          OnlyLastAbortsCons(step.decision, rest.decisions);
        }
      }
    }
  }

  /** Every name in `after` is in `before` or in one of the `planned` sets. */
  predicate WithinPlanned(before: set<string>, after: set<string>, planned: seq<set<string>>) {
    forall x :: x in after ==> x in before || exists k :: 0 <= k < |planned| && x in planned[k]
  }

  lemma WithinPlannedCons(before: set<string>, mid: set<string>, after: set<string>, first: set<string>, planned: seq<set<string>>)
    requires mid <= before + first
    requires WithinPlanned(mid, after, planned)
    ensures WithinPlanned(before, after, [first] + planned)
  {
    var all := [first] + planned;
    forall x | x in after && x !in before
      ensures exists k :: 0 <= k < |all| && x in all[k]
    {
      if x in mid {
        assert x in all[0];
      } else {
        var k :| 0 <= k < |planned| && x in planned[k];
        assert x in all[k + 1];
      }
    }
  }

  /** The directories each of the first `n` entries plans, in order. */
  function DirsPlanned(outputDir: string, archivePath: string, entries: seq<Entry>, n: nat): (r: seq<set<string>>)
    requires n <= |entries|
    ensures |r| == n
    ensures forall k :: 0 <= k < n ==> r[k] == PlannedDirs(Materialize(outputDir, archivePath, entries[k].path))
  {
    if n == 0 then []
    else [PlannedDirs(Materialize(outputDir, archivePath, entries[0].path))] + DirsPlanned(outputDir, archivePath, entries[1..], n - 1)
  }

  /** The file each of the first `n` entries plans, in order. */
  function FilesPlanned(outputDir: string, archivePath: string, entries: seq<Entry>, n: nat): (r: seq<set<string>>)
    requires n <= |entries|
    ensures |r| == n
    ensures forall k :: 0 <= k < n ==> r[k] == PlannedFiles(Materialize(outputDir, archivePath, entries[k].path))
  {
    if n == 0 then []
    else [PlannedFiles(Materialize(outputDir, archivePath, entries[0].path))] + FilesPlanned(outputDir, archivePath, entries[1..], n - 1)
  }

  /** Every directory the loop makes is attempted for the parent of one of
      the entries it processed. */
  lemma {:induction false} ExtractEntriesDirsPlanned(fs: FileSystem, outputDir: string, archivePath: string, entries: seq<Entry>)
    ensures var r := ExtractEntries(fs, outputDir, archivePath, entries);
      WithinPlanned(fs.dirs, r.fs.dirs, DirsPlanned(outputDir, archivePath, entries, |r.decisions|))
    decreases |entries|
  {
    if entries != [] {
      var step := ProcessEntry(fs, outputDir, archivePath, entries[0]);
      var p0 := Materialize(outputDir, archivePath, entries[0].path);
      ProcessEntryAddsOnlyPlanned(fs, outputDir, archivePath, entries[0]);
      if step.decision.Aborted? {
        assert DirsPlanned(outputDir, archivePath, entries, 1) == [PlannedDirs(p0)] + [];
        WithinPlannedCons(fs.dirs, step.fs.dirs, step.fs.dirs, PlannedDirs(p0), []);
      } else {
        var rest := ExtractEntries(step.fs, outputDir, archivePath, entries[1..]);
        var m := |rest.decisions|;
        ExtractEntriesDirsPlanned(step.fs, outputDir, archivePath, entries[1..]);
        assert DirsPlanned(outputDir, archivePath, entries, m + 1)
          == [PlannedDirs(p0)] + DirsPlanned(outputDir, archivePath, entries[1..], m);
        WithinPlannedCons(fs.dirs, step.fs.dirs, rest.fs.dirs, PlannedDirs(p0), DirsPlanned(outputDir, archivePath, entries[1..], m));
      }
    }
  }

  /** Every file the loop makes is the destination of one of the entries it
      processed. */
  lemma {:induction false} ExtractEntriesFilesPlanned(fs: FileSystem, outputDir: string, archivePath: string, entries: seq<Entry>)
    ensures var r := ExtractEntries(fs, outputDir, archivePath, entries);
      WithinPlanned(fs.files, r.fs.files, FilesPlanned(outputDir, archivePath, entries, |r.decisions|))
    decreases |entries|
  {
    if entries != [] {
      var step := ProcessEntry(fs, outputDir, archivePath, entries[0]);
      var p0 := Materialize(outputDir, archivePath, entries[0].path);
      ProcessEntryAddsOnlyPlanned(fs, outputDir, archivePath, entries[0]);
      if step.decision.Aborted? {
        assert FilesPlanned(outputDir, archivePath, entries, 1) == [PlannedFiles(p0)] + [];
        WithinPlannedCons(fs.files, step.fs.files, step.fs.files, PlannedFiles(p0), []);
      } else {
        var rest := ExtractEntries(step.fs, outputDir, archivePath, entries[1..]);
        var m := |rest.decisions|;
        ExtractEntriesFilesPlanned(step.fs, outputDir, archivePath, entries[1..]);
        assert FilesPlanned(outputDir, archivePath, entries, m + 1)
          == [PlannedFiles(p0)] + FilesPlanned(outputDir, archivePath, entries[1..], m);
        WithinPlannedCons(fs.files, step.fs.files, rest.fs.files, PlannedFiles(p0), FilesPlanned(outputDir, archivePath, entries[1..], m));
      }
    }
  }

  /** `extract_vpk`: an archive with no entries is a failure. */
  function ExtractVpk(fs: FileSystem, outputDir: string, archivePath: string, entries: seq<Entry>): (r: Run)
    ensures entries == [] ==> r.status == 1 && r.fs == fs && r.decisions == []
    ensures r.status == 0 ==> |entries| > 0 && |r.decisions| == |entries|
  {
    if entries == [] then Run(1, fs, [])
    else ExtractEntries(fs, outputDir, archivePath, entries)
  }

  /** `main`: the argument count is checked, the archive is loaded (None when
      `vpk_load` fails), the start-up root is created, and the entries are
      extracted under it. */
  function RunExtractor(args: seq<string>, archive: Option<seq<Entry>>, fs: FileSystem): (r: Run)
    ensures |args| != 2 ==> r == Run(1, fs, [])
    ensures archive.None? ==> r == Run(1, fs, [])
    ensures r.status == 0 || r.status == 1
    ensures r.status == 0 ==> |args| == 2 && archive.Some? && |r.decisions| == |archive.value| > 0
    ensures |args| == 2 && archive.Some? ==>
      var made := CreateNestedDirectories(fs, StartupRoot(args[1]));
      && (!made.ok ==> r == Run(1, made.fs, []))
      && (made.ok ==> r == ExtractVpk(made.fs, StartupRoot(args[1]), args[1], archive.value))
  {
    if |args| != 2 then Run(1, fs, [])
    else match archive
      case None => Run(1, fs, [])
      case Some(entries) =>
        var root := StartupRoot(args[1]);
        var made := CreateNestedDirectories(fs, root);
        if !made.ok then Run(1, made.fs, [])
        else ExtractVpk(made.fs, root, args[1], entries)
  }

  /** Each decision the loop records is the one its entry's path accounts
      for, and an extracted destination is a file at the end of the run. */
  lemma {:induction false} ExtractEntriesExplained(fs: FileSystem, outputDir: string, archivePath: string, entries: seq<Entry>, k: nat)
    requires k < |ExtractEntries(fs, outputDir, archivePath, entries).decisions|
    ensures var r := ExtractEntries(fs, outputDir, archivePath, entries);
      && Explains(outputDir, archivePath, fs.refused, entries[k], r.decisions[k])
      && (r.decisions[k].Extracted? ==> r.decisions[k].dest in r.fs.files)
    decreases k
  {
    var step := ProcessEntry(fs, outputDir, archivePath, entries[0]);
    ProcessEntryExplained(fs, outputDir, archivePath, entries[0]);
    if k > 0 {
      assert !step.decision.Aborted?;
      var rest := ExtractEntries(step.fs, outputDir, archivePath, entries[1..]);
      ExtractEntriesExplained(step.fs, outputDir, archivePath, entries[1..], k - 1);
      assert ([step.decision] + rest.decisions)[k] == rest.decisions[k - 1];
      assert entries[k] == entries[1..][k - 1];
    }
  }

  /** Every directory an extracted entry needed is a directory, or is a
      non-directory, when the loop ends. */
  lemma {:induction false} ExtractedUnderDirectories(fs: FileSystem, outputDir: string, archivePath: string, entries: seq<Entry>, k: nat)
    requires k < |ExtractEntries(fs, outputDir, archivePath, entries).decisions|
    ensures var r := ExtractEntries(fs, outputDir, archivePath, entries);
      r.decisions[k].Extracted? ==>
        && ParentDirectory(r.decisions[k].dest).Some?
        && forall n :: n in NestedAttempts(ParentDirectory(r.decisions[k].dest).value) ==> n in r.fs.dirs || n in r.fs.files
    decreases k
  {
    var step := ProcessEntry(fs, outputDir, archivePath, entries[0]);
    if step.decision.Aborted? {
      assert k == 0;
    } else {
      var rest := ExtractEntries(step.fs, outputDir, archivePath, entries[1..]);
      if k > 0 {
        ExtractedUnderDirectories(step.fs, outputDir, archivePath, entries[1..], k - 1);
        assert ([step.decision] + rest.decisions)[k] == rest.decisions[k - 1];
      }
    }
  }

  /** What a materialised entry that got past its directory creation left
      behind is in `after`: every attempt for its parent, and its destination
      once `fopen` created it. This holds whatever the entry's outcome, fatal
      or not. */
  predicate Kept(plan: Plan, e: Entry, d: Decision, after: FileSystem) {
    plan.Materialized? && d != Aborted(DirectoryFailed) ==>
      && (plan.parent.Some? ==> forall n :: n in NestedAttempts(plan.parent.value) ==> n in after.dirs || n in after.files)
      && (OutputCreated(e) ==> plan.dest in after.files)
  }

  lemma KeptGrows(outputDir: string, archivePath: string, e: Entry, d: Decision, a: FileSystem, b: FileSystem)
    requires KeptBy(outputDir, archivePath, e, d, a)
    requires a.dirs <= b.dirs && a.files <= b.files
    ensures KeptBy(outputDir, archivePath, e, d, b)
  {
  }

  /** One entry leaves its directories, and its output file once created,
      in place, even when its outcome stops the run. */
  lemma ProcessEntryKeepsWork(fs: FileSystem, outputDir: string, archivePath: string, e: Entry)
    ensures var r := ProcessEntry(fs, outputDir, archivePath, e);
      KeptBy(outputDir, archivePath, e, r.decision, r.fs)
  {
    var plan := Materialize(outputDir, archivePath, e.path);
    if plan.Materialized? && plan.parent.Some? {
      CreateNestedDirectoriesEffect(fs, plan.parent.value);
    }
  }

  /** What one entry's outcome leaves in place, given its own plan. */
  predicate KeptBy(outputDir: string, archivePath: string, e: Entry, d: Decision, after: FileSystem) {
    Kept(Materialize(outputDir, archivePath, e.path), e, d, after)
  }

  /** Nothing an entry made is undone by the rest of the loop: the
      directories of every processed entry that got past its directory
      creation, and the output file of every entry whose `fopen` succeeded,
      are there when the loop ends, the fatal entry's included. */
  lemma {:induction false} ExtractEntriesKeepsWork(fs: FileSystem, outputDir: string, archivePath: string, entries: seq<Entry>, k: nat)
    requires k < |ExtractEntries(fs, outputDir, archivePath, entries).decisions|
    ensures var r := ExtractEntries(fs, outputDir, archivePath, entries);
      KeptBy(outputDir, archivePath, entries[k], r.decisions[k], r.fs)
    decreases k
  {
    var step := ProcessEntry(fs, outputDir, archivePath, entries[0]);
    var r := ExtractEntries(fs, outputDir, archivePath, entries);
    ProcessEntryKeepsWork(fs, outputDir, archivePath, entries[0]);
    if step.decision.Aborted? {
      assert k == 0 && r.decisions == [step.decision] && r.fs == step.fs;
    } else {
      var rest := ExtractEntries(step.fs, outputDir, archivePath, entries[1..]);
      assert r.decisions == [step.decision] + rest.decisions && r.fs == rest.fs;
      if k == 0 {
        KeptGrows(outputDir, archivePath, entries[0], step.decision, step.fs, rest.fs);
      } else {
        ExtractEntriesKeepsWork(step.fs, outputDir, archivePath, entries[1..], k - 1);
        assert r.decisions[k] == rest.decisions[k - 1];
        assert entries[k] == entries[1..][k - 1];
      }
    }
  }

  /** Under the program's own root, the guard skips every top-level entry
      (one whose sanitised path holds no '/') that is not empty or too long,
      unless the archive's file name is exactly ".vpk"; for that name it never
      fires. Only entries below a subdirectory are ever written otherwise. */
  lemma TopLevelEntriesSkipped(args: seq<string>, entries: seq<Entry>, fs: FileSystem, k: nat)
    requires |args| == 2
    requires k < |RunExtractor(args, Some(entries), fs).decisions|
    ensures var d := RunExtractor(args, Some(entries), fs).decisions[k];
      var rel := Sanitize(entries[k].path);
      && (ArchiveName(args[1]) != Extension && rel != [] && '/' !in rel
          && |StartupRoot(args[1])| + 1 + |rel| < MaxPathLength
          ==> d == Skipped(RootCollision))
      && (ArchiveName(args[1]) != Extension && d.Extracted? ==> '/' in rel)
      && (ArchiveName(args[1]) == Extension ==> d != Skipped(RootCollision))
  {
    var root := StartupRoot(args[1]);
    var made := CreateNestedDirectories(fs, root);
    assert made.ok;
    ExtractEntriesExplained(made.fs, root, args[1], entries, k);
    var e := entries[k];
    var rel := Sanitize(e.path);
    HonoursGuard(Materialize(root, args[1], e.path), e, made.fs.refused, RunExtractor(args, Some(entries), fs).decisions[k]);
    RootsAgree(args[1]);
    if rel != [] && |root| + 1 + |rel| < MaxPathLength {
      CollisionGuard(root, args[1], e.path);
    }
  }
}

=== FILE: output_root.dfy ===
/** The output root `<stem>_dir` is derived from the archive's path twice:
    once at start-up, where it names the directory everything is extracted
    into, and once per entry, where it feeds the collision guard. Both take
    the text after the last '/' (a '\' is not a split point) into a
    1024-character buffer, drop a ".vpk" extension and append "_dir", but they
    decide differently whether the extension is there. */
module OutputRoot {
  import opened CStrings

  const Extension: string := ".vpk"
  const RootSuffix: string := "_dir"

  /** The archive's file name: the text after its last '/'. */
  function BaseName(path: string): (r: string)
    ensures '/' !in r
    ensures |r| <= |path| && r == path[|path| - |r|..]
    ensures |r| < |path| ==> path[|path| - |r| - 1] == '/'
  {
    match LastIndexOf(path, '/')
    case None => path
    case Some(i) => path[i + 1..]
  }

  /** The archive name as copied into the `vpk_name` buffer. */
  function ArchiveName(path: string): (r: string)
    ensures '/' !in r
  {
    Buffered(BaseName(path))
  }

  predicate EndsWithExtension(name: string) {
    |name| >= |Extension| && name[|name| - |Extension|..] == Extension
  }

  /** In a name ending with ".vpk" the last '.' is the extension's. */
  lemma ExtensionStartsAtLastDot(name: string)
    requires EndsWithExtension(name)
    ensures LastIndexOf(name, '.') == Some(|name| - |Extension|)
  {
    var i := |name| - |Extension|;
    forall j | i < j < |name|
      ensures name[j] != '.'
    {
      assert name[j] == name[i..][j - i] == Extension[j - i];
    }
    LastIndexOfUnique(name, '.', i);
  }

  /** Start-up rule: strip ".vpk" only from a name longer than the extension. */
  function StripExtensionAtStartup(name: string): (r: string)
    ensures r <= name
    ensures r == name || name == r + Extension
  {
    if |name| > |Extension| && EndsWithExtension(name) then name[..|name| - |Extension|] else name
  }

  /** Per-entry rule: strip when the text from the last '.' is exactly ".vpk". */
  function StripExtensionPerEntry(name: string): (r: string)
    ensures r <= name
    ensures r == name || name == r + Extension
  {
    match LastIndexOf(name, '.')
    case None => name
    case Some(i) => if name[i..] == Extension then name[..i] else name
  }

  /** The per-entry rule strips exactly the names that end with ".vpk",
      whatever their length, although it looks only at the last '.'. */
  lemma PerEntryStripsExactlyExtension(name: string)
    ensures StripExtensionPerEntry(name) != name <==> EndsWithExtension(name)
  {
    if EndsWithExtension(name) {
      ExtensionStartsAtLastDot(name);
    }
  }

  /** `output_dir` as `main` computes it. */
  function StartupRoot(archivePath: string): (r: string)
    ensures var name := ArchiveName(archivePath);
      r == Buffered((if EndsWithExtension(name) && name != Extension then name[..|name| - |Extension|] else name) + RootSuffix)
  {
    var name := ArchiveName(archivePath);
    assert EndsWithExtension(name) && |name| == |Extension| ==> name == Extension;
    Buffered(StripExtensionAtStartup(name) + RootSuffix)
  }

  /** `output_dir` as `extract_vpk` recomputes it for every entry. */
  function PerEntryRoot(archivePath: string): (r: string)
    ensures var name := ArchiveName(archivePath);
      r == Buffered((if EndsWithExtension(name) then name[..|name| - |Extension|] else name) + RootSuffix)
  {
    var name := ArchiveName(archivePath);
    PerEntryStripsExactlyExtension(name);
    Buffered(StripExtensionPerEntry(name) + RootSuffix)
  }

  /** Neither root holds a '/': both come from the text after the archive
      path's last '/'. */
  lemma RootsHaveNoSlash(archivePath: string)
    ensures '/' !in StartupRoot(archivePath)
    ensures '/' !in PerEntryRoot(archivePath)
  {
    var name := ArchiveName(archivePath);
    StemHasNoSlash(StripExtensionAtStartup(name), name);
    StemHasNoSlash(StripExtensionPerEntry(name), name);
  }

  /** A stem cut from a name without '/' gives a root without '/'. */
  lemma StemHasNoSlash(stem: string, name: string)
    requires stem <= name && '/' !in name
    ensures '/' !in Buffered(stem + RootSuffix)
  {
    AbsentFromPrefix(stem, name, '/');
    var full := stem + RootSuffix;
    assert '/' !in RootSuffix;
    assert '/' !in full;
    AbsentFromPrefix(Buffered(full), full, '/');
  }

  /** The two extension rules disagree on exactly one name: ".vpk" itself. */
  lemma StripExtensionRulesAgree(name: string)
    ensures StripExtensionAtStartup(name) == StripExtensionPerEntry(name) <==> name != Extension
  {
    PerEntryStripsExactlyExtension(name);
  }

  /** The two output roots are equal unless the archive's file name is
      exactly ".vpk", which gives ".vpk_dir" at start-up and "_dir" per entry. */
  lemma RootsAgree(archivePath: string)
    ensures StartupRoot(archivePath) == PerEntryRoot(archivePath) <==> ArchiveName(archivePath) != Extension
    ensures ArchiveName(archivePath) == Extension ==>
      StartupRoot(archivePath) == ".vpk_dir" && PerEntryRoot(archivePath) == "_dir"
  {
    var name := ArchiveName(archivePath);
    StripExtensionRulesAgree(name);
    if name == Extension {
      ExtensionNameRoots(archivePath);
    }
  }

  /** The roots of an archive whose file name is exactly ".vpk". */
  lemma ExtensionNameRoots(archivePath: string)
    requires ArchiveName(archivePath) == Extension
    ensures StartupRoot(archivePath) == ".vpk_dir" && PerEntryRoot(archivePath) == "_dir"
  {
    var name := ArchiveName(archivePath);
    ExtensionRootName();
    assert name + RootSuffix == ".vpk_dir";
    assert StartupRoot(archivePath) == Buffered(".vpk_dir");
    assert name[|name| - |Extension|..] == Extension;
    assert name[..|name| - |Extension|] + RootSuffix == RootSuffix;
    assert PerEntryRoot(archivePath) == Buffered("_dir");
  }

  lemma ExtensionRootName()
    ensures Extension + RootSuffix == ".vpk_dir"
  {
    var s := Extension + RootSuffix;
    assert |s| == 8;
    assert s[0] == '.' && s[1] == 'v' && s[2] == 'p' && s[3] == 'k';
    assert s[4] == '_' && s[5] == 'd' && s[6] == 'i' && s[7] == 'r';
  }
}

=== FILE: worked_cases.dfy ===
/** Worked cases of the whole program on small inputs. The first is a small
    archive holding one nested entry: "foo.vpk" with "bar/baz.txt", whose
    content is "hello". Each step is its own lemma so
    that every proof stays small. */
module WorkedCases {
  import opened CStrings
  import opened EntryPaths
  import opened OutputRoot
  import opened Directories
  import opened Extractor

  /** "foo.vpk" names the root "foo_dir" at start-up. */
  lemma FooStartupRoot()
    ensures StartupRoot("foo.vpk") == "foo_dir"
  {
    assert BaseName("foo.vpk") == "foo.vpk";
    assert EndsWithExtension("foo.vpk");
    assert StripExtensionAtStartup("foo.vpk") == "foo";
  }

  /** "foo.vpk" names the root "foo_dir" per entry too. */
  lemma FooPerEntryRoot()
    ensures PerEntryRoot("foo.vpk") == "foo_dir"
  {
    assert BaseName("foo.vpk") == "foo.vpk";
    assert EndsWithExtension("foo.vpk");
    ExtensionStartsAtLastDot("foo.vpk");
    assert StripExtensionPerEntry("foo.vpk") == "foo";
  }

  /** Making "foo_dir" in an empty tree makes exactly it. */
  lemma FooRootCreated()
    ensures CreateNestedDirectories(FileSystem({}, {}, {}), "foo_dir") == Created(true, FileSystem({"foo_dir"}, {}, {}))
  {
    NormalizedKeepsSlashes("foo_dir");
    assert WorkingCopy("foo_dir") == "foo_dir";
    assert SeparatorCuts("foo_dir", 1) == [];
    assert NestedAttempts("foo_dir") == ["foo_dir"];
  }

  lemma SanitizeBar()
    ensures Sanitize("bar/baz.txt") == "bar/baz.txt"
  {
    var rel := "bar/baz.txt";
    assert !IsSpace(rel[0]) && !IsSeparator(rel[0]);
    SanitizeCharacterization([], rel);
    assert [] + rel == rel;
  }

  lemma DestinationBar()
    ensures Destination("foo_dir", "bar/baz.txt") == "foo_dir/bar/baz.txt"
  {
    assert |"foo_dir"| + 1 + |"bar/baz.txt"| < MaxPathLength;
    assert "foo_dir" + "/" + "bar/baz.txt" == "foo_dir/bar/baz.txt";
  }

  lemma ParentBar()
    ensures ParentDirectory("foo_dir/bar/baz.txt") == Some("foo_dir/bar")
  {
    var dest := "foo_dir/bar/baz.txt";
    assert dest[11] == '/';
    assert forall j :: 11 < j < |dest| ==> dest[j] != '/';
    LastIndexOfUnique(dest, '/', 11);
    assert dest[..11] == "foo_dir/bar";
  }

  /** "bar/baz.txt" under "foo_dir" is planned at "foo_dir/bar/baz.txt". */
  lemma NestedEntryPlan()
    ensures Materialize("foo_dir", "foo.vpk", "bar/baz.txt")
      == Materialized("bar/baz.txt", "foo_dir/bar/baz.txt", Some("foo_dir/bar"))
  {
    FooPerEntryRoot();
    SanitizeBar();
    DestinationBar();
    ParentBar();
    assert |"foo_dir/bar"| != |"foo_dir"|;
  }

  /** The only separator of "foo_dir/bar" after index 0 is at index 7. */
  lemma FooBarCuts()
    ensures SeparatorCuts("foo_dir/bar", 1) == [7]
  {
    var t := "foo_dir/bar";
    assert forall i :: 1 <= i < 7 ==> !IsSeparator(t[i]);
    SeparatorCutsSkip(t, 1, 7);
    assert IsSeparator(t[7]);
    assert forall i :: 8 <= i < 11 ==> !IsSeparator(t[i]);
    SeparatorCutsSkip(t, 8, 11);
  }

  /** The attempts for "foo_dir/bar" are "foo_dir", then the path itself. */
  lemma FooBarAttempts()
    ensures NestedAttempts("foo_dir/bar") == ["foo_dir", "foo_dir/bar"]
  {
    var t := "foo_dir/bar";
    NormalizedKeepsSlashes(t);
    assert WorkingCopy(t) == t;
    FooBarCuts();
    assert t[..7] == "foo_dir";
    assert Prefixes(t, [7]) == ["foo_dir"];
  }

  /** With "foo_dir" present, making "foo_dir/bar" adds just it. */
  lemma NestedEntryDirectories()
    ensures CreateNestedDirectories(FileSystem({"foo_dir"}, {}, {}), "foo_dir/bar")
      == Created(true, FileSystem({"foo_dir", "foo_dir/bar"}, {}, {}))
  {
    var fs := FileSystem({"foo_dir"}, {}, {});
    FooBarAttempts();
    CreateAllFirst(fs, "foo_dir", ["foo_dir/bar"]);
    CreateAllFirst(fs, "foo_dir/bar", []);
    assert ["foo_dir", "foo_dir/bar"] == ["foo_dir"] + ["foo_dir/bar"];
    assert ["foo_dir/bar"] == ["foo_dir/bar"] + [];
  }

  /** `main` on "foo.vpk" in an empty tree extracts under a fresh "foo_dir". */
  lemma FooRunUnfolds(entries: seq<Entry>)
    ensures RunExtractor(["vpkextractor", "foo.vpk"], Some(entries), FileSystem({}, {}, {}))
      == ExtractVpk(FileSystem({"foo_dir"}, {}, {}), "foo_dir", "foo.vpk", entries)
  {
    var args := ["vpkextractor", "foo.vpk"];
    assert |args| == 2 && args[1] == "foo.vpk";
    FooStartupRoot();
    FooRootCreated();
  }

  /** A one-entry loop records that entry's decision and nothing else. */
  lemma SingleEntryRun(fs: FileSystem, outputDir: string, archivePath: string, e: Entry)
    ensures var step := ProcessEntry(fs, outputDir, archivePath, e);
      ExtractVpk(fs, outputDir, archivePath, [e])
        == Run(if step.decision.Aborted? then 1 else 0, step.fs, [step.decision])
  {
    var step := ProcessEntry(fs, outputDir, archivePath, e);
    assert [e][0] == e && [e][1..] == [];
    var rest := ExtractEntries(step.fs, outputDir, archivePath, []);
    assert rest == Run(0, step.fs, []);
    if !step.decision.Aborted? {
      assert ExtractEntries(fs, outputDir, archivePath, [e]) == Continue(step.decision, rest);
      assert [step.decision] + [] == [step.decision];
    }
  }

  /** The five bytes of "hello" land in "foo_dir/bar/baz.txt". */
  lemma NestedEntryStep()
    ensures var hello: seq<byte> := [104, 101, 108, 108, 111];
      ProcessEntry(FileSystem({"foo_dir"}, {}, {}), "foo_dir", "foo.vpk",
                   Entry("bar/baz.txt", true, hello, true, true, 5, true))
      == Step(Extracted("foo_dir/bar/baz.txt", hello),
              FileSystem({"foo_dir", "foo_dir/bar"}, {"foo_dir/bar/baz.txt"}, {}))
  {
    NestedEntryPlan();
    NestedEntryDirectories();
  }

  /** Archive "foo.vpk" holding "bar/baz.txt" with the five bytes of "hello",
      extracted into an empty tree: both directories are made, the file is
      written with exactly those bytes, and the run succeeds. */
  lemma NestedEntryExample()
    ensures var hello: seq<byte> := [104, 101, 108, 108, 111];
      RunExtractor(["vpkextractor", "foo.vpk"],
                   Some([Entry("bar/baz.txt", true, hello, true, true, 5, true)]),
                   FileSystem({}, {}, {}))
      == Run(0, FileSystem({"foo_dir", "foo_dir/bar"}, {"foo_dir/bar/baz.txt"}, {}),
             [Extracted("foo_dir/bar/baz.txt", hello)])
  {
    var hello: seq<byte> := [104, 101, 108, 108, 111];
    var e := Entry("bar/baz.txt", true, hello, true, true, 5, true);
    FooRunUnfolds([e]);
    SingleEntryRun(FileSystem({"foo_dir"}, {}, {}), "foo_dir", "foo.vpk", e);
    NestedEntryStep();
  }

  lemma SanitizeReadme()
    ensures Sanitize("readme.txt") == "readme.txt"
  {
    var rel := "readme.txt";
    assert !IsSpace(rel[0]) && !IsSeparator(rel[0]);
    SanitizeCharacterization([], rel);
    assert [] + rel == rel;
  }

  lemma ParentReadme()
    ensures ParentDirectory("foo_dir/readme.txt") == Some("foo_dir")
  {
    var dest := "foo_dir/readme.txt";
    assert dest[7] == '/';
    assert forall j :: 7 < j < |dest| ==> dest[j] != '/';
    LastIndexOfUnique(dest, '/', 7);
    assert dest[..7] == "foo_dir";
  }

  lemma DestinationReadme()
    ensures Destination("foo_dir", "readme.txt") == "foo_dir/readme.txt"
  {
    assert |"foo_dir"| + 1 + |"readme.txt"| < MaxPathLength;
    assert "foo_dir" + "/" + "readme.txt" == "foo_dir/readme.txt";
  }

  /** "readme.txt" under "foo_dir" is caught by the guard. */
  lemma TopLevelEntryPlan()
    ensures Materialize("foo_dir", "foo.vpk", "readme.txt") == SkipCollision("foo_dir")
  {
    FooPerEntryRoot();
    SanitizeReadme();
    DestinationReadme();
    ParentReadme();
  }

  /** The same archive holding a top-level "readme.txt" writes nothing: the
      guard compares "foo_dir" with the recomputed root "foo_dir". */
  lemma TopLevelEntryExample()
    ensures RunExtractor(["vpkextractor", "foo.vpk"],
                         Some([Entry("readme.txt", true, [33], true, true, 1, true)]),
                         FileSystem({}, {}, {}))
      == Run(0, FileSystem({"foo_dir"}, {}, {}), [Skipped(RootCollision)])
  {
    var e := Entry("readme.txt", true, [33], true, true, 1, true);
    FooRunUnfolds([e]);
    SingleEntryRun(FileSystem({"foo_dir"}, {}, {}), "foo_dir", "foo.vpk", e);
    TopLevelEntryPlan();
  }
}
